=== FILE: README.md ===
# Lecteur multimédia: user store, login and administration flow

This project models, in Dafny, the account-management core of the Android
application *Lecteur multimédia* (package `eben.ezer.lecteurmultimedias`).
It covers four parts:

- the local `users` table, kept by `DatabaseHelper`;
- the launch-time creation of a default super-admin account;
- the `MediaUserApp` screen/session state machine;
- the handlers that the login screen and the administration dashboard wrap
  around the table's operations.

Everything is pure functions over immutable values. The SQLite table is a
sequence of `User` rows in rowid order plus the AUTOINCREMENT counter
(`UserStore.Store`). Each Compose handler is a function from the screen's
state and the table to the new screen state and the table it leaves.

Modules, one per source concept:

| module | file | models |
|---|---|---|
| `Optional` | `optional.dfy` | nullable results (`User?`) |
| `Messages` | `messages.dfy` | the French user-facing messages |
| `Text` | `text.dfy` | Kotlin's `String.trim()` and `Char.isWhitespace()` |
| `UserStore` | `user_store.dfy` | `DatabaseHelper.kt`: the table, its constraints, its five operations |
| `Session` | `session.dfy` | `MainActivity.kt`: `createDefaultSuperAdmin`, `Screen`, `MediaUserApp`'s two state variables and transitions |
| `LoginScreen` | `login_screen.dfy` | `LoginScreen.kt`: the two fields, the error line, the login button |
| `AdminDashboard` | `admin_dashboard.dfy` | `AdminDashboardScreen.kt`: list, long-click guard, delete dialog, creation dialog |
| `App` | `app.dfy` | the whole application: the launch, then the screens taking turns on one table |

The main results:

- The table stays valid under any sequence of inserts and deletes. Valid
  means ids are positive, below the counter and in scan order, and usernames
  are unique (`UserStore.ApplyPreservesValid`).
- Ids are never reused (`UserStore.IdsNeverReused`).
- Login and creation round-trip: an account created from the dashboard logs
  in with the fields as typed and reaches the media player
  (`UserStore.CreateThenAuthenticate`, `App.CreatedAccountLogsIn`).
- The default account `admin`/`admin123` reaches the dashboard on a fresh
  install (`App.DefaultAdminLogsIn`).
- Every state the application can reach satisfies `App.Inv`
  (`App.RunPreserves`). Along any run:
  - the table stays valid;
  - the dashboard is only shown to a logged-in super-admin;
  - no super-admin row is ever removed;
  - every account added has the role `user`;
  - the id counter never goes back.

## Model

| member | source | states |
|---|---|---|
| Text.Trim | app/src/main/java/eben/ezer/lecteurmultimedias/LoginScreen.kt:92 | `trim()` yields a slice of the input whose outside is all whitespace and whose ends are not whitespace; the result is empty exactly when the input is blank |
| Text.TrimUnique | app/src/main/java/eben/ezer/lecteurmultimedias/LoginScreen.kt:98 | that description determines the trimmed string, so `trim()` is fixed by its meaning, independently of the scan that computes it |
| Text.TrimIdempotent | app/src/main/java/eben/ezer/lecteurmultimedias/AdminDashboardScreen.kt:281 | trimming an already trimmed field changes nothing |
| UserStore.FirstMatch | app/src/main/java/eben/ezer/lecteurmultimedias/DatabaseHelper.kt:75 | the cursor's first row is the earliest row satisfying the query; none is found exactly when no row satisfies it |
| UserStore.UserExists | app/src/main/java/eben/ezer/lecteurmultimedias/DatabaseHelper.kt:113-127 | true exactly when some row has that username |
| UserStore.Authenticate | app/src/main/java/eben/ezer/lecteurmultimedias/DatabaseHelper.kt:65-90 | returns a user exactly when some row matches both username and password exactly; a returned user is such a row |
| UserStore.CreateUser | app/src/main/java/eben/ezer/lecteurmultimedias/DatabaseHelper.kt:47-63 | succeeds exactly when the username is free and no platform fault occurs; success appends one row with the next id and the given fields and advances the counter; failure leaves the table unchanged |
| UserStore.CreatePreservesValid | app/src/main/java/eben/ezer/lecteurmultimedias/DatabaseHelper.kt:32-33 | an insert keeps ids increasing and below the counter and usernames unique (the AUTOINCREMENT and UNIQUE declarations) |
| UserStore.Without | app/src/main/java/eben/ezer/lecteurmultimedias/DatabaseHelper.kt:131 | `DELETE … WHERE id = ?` keeps exactly the rows with another id; something is removed exactly when a row had that id |
| UserStore.WithoutKeepsOrder | app/src/main/java/eben/ezer/lecteurmultimedias/DatabaseHelper.kt:32 | the rows left by a delete are still in increasing id order |
| UserStore.DeleteUser | app/src/main/java/eben/ezer/lecteurmultimedias/DatabaseHelper.kt:129-134 | reports success exactly when a row had that id; afterwards the rows are the old ones minus that id, all others untouched; the counter is unchanged |
| UserStore.DeletePreservesValid | app/src/main/java/eben/ezer/lecteurmultimedias/DatabaseHelper.kt:129-134 | a delete keeps the table valid |
| UserStore.GetAllUsers | app/src/main/java/eben/ezer/lecteurmultimedias/DatabaseHelper.kt:92-111 | returns each row of the table exactly once (the same multiset of rows), in increasing id order on a valid table |
| UserStore.AuthenticateFindsRow | app/src/main/java/eben/ezer/lecteurmultimedias/DatabaseHelper.kt:65-89 | on a valid table, a row's username with the right password finds that row, with any other password nothing |
| UserStore.CreateThenAuthenticate | app/src/main/java/eben/ezer/lecteurmultimedias/DatabaseHelper.kt:47-89 | round trip: after a successful `createUser(u, p, role)`, `authenticateUser(u, p)` returns the new row with the next id and that role |
| UserStore.CreateTwiceFails | app/src/main/java/eben/ezer/lecteurmultimedias/DatabaseHelper.kt:33 | a second insert of a username just inserted fails and changes nothing |
| UserStore.DeleteTwiceFails | app/src/main/java/eben/ezer/lecteurmultimedias/DatabaseHelper.kt:129-134 | after a successful delete no row has that id, and deleting it again fails and changes nothing |
| UserStore.ApplyPreservesValid | app/src/main/java/eben/ezer/lecteurmultimedias/DatabaseHelper.kt:29-40 | usernames stay unique and ids ordered after any sequence of inserts and deletes |
| UserStore.IdsNeverReused | app/src/main/java/eben/ezer/lecteurmultimedias/DatabaseHelper.kt:32 | along any sequence of operations the ids handed out strictly increase, none is below the starting counter, and the counter never decreases |
| Session.CreateDefaultSuperAdmin | app/src/main/java/eben/ezer/lecteurmultimedias/MainActivity.kt:35-39 | an existing `admin` (whatever its role) or a fault leaves the table as it is; otherwise `admin` exists afterwards; the only possible change is the insert of the `admin`/`admin123` super-admin row with the next id, which advances the counter |
| Session.BootstrapPreservesValid | app/src/main/java/eben/ezer/lecteurmultimedias/MainActivity.kt:36-38 | the bootstrap keeps the table valid |
| Session.BootstrapIdempotent | app/src/main/java/eben/ezer/lecteurmultimedias/MainActivity.kt:36-38 | a second bootstrap after one that succeeded (or found `admin`) changes nothing |
| Session.BootstrapOnFreshStore | app/src/main/java/eben/ezer/lecteurmultimedias/MainActivity.kt:37 | on a fresh database the bootstrap leaves exactly one row, `admin`/`admin123`, super-admin, id 1 |
| Session.OnLoginSuccess | app/src/main/java/eben/ezer/lecteurmultimedias/MainActivity.kt:51-58 | the user is recorded whatever the role; `super-admin` routes to the dashboard, `user` to the media player, any other role stays on the login screen (each an if-and-only-if) |
| Session.Next | app/src/main/java/eben/ezer/lecteurmultimedias/MainActivity.kt:47-82 | an event the screen on show does not offer changes nothing; logout from either other screen returns to the login screen with no user; a login records its user and routes it by role as `onLoginSuccess` does |
| Session.DashboardEntry | app/src/main/java/eben/ezer/lecteurmultimedias/MainActivity.kt:53-54 | the dashboard is entered only from the login screen, by a login of a super-admin |
| Session.ReachableConsistent | app/src/main/java/eben/ezer/lecteurmultimedias/MainActivity.kt:43-82 | along any sequence of events, the dashboard and the media player are shown only to a logged-in user of the matching role |
| LoginScreen.EditUsername | app/src/main/java/eben/ezer/lecteurmultimedias/LoginScreen.kt:47-50 | typing in the username field replaces it, keeps the password and clears the error |
| LoginScreen.EditPassword | app/src/main/java/eben/ezer/lecteurmultimedias/LoginScreen.kt:61-64 | typing in the password field replaces it, keeps the username and clears the error |
| LoginScreen.OnLoginClick | app/src/main/java/eben/ezer/lecteurmultimedias/LoginScreen.kt:90-106 | a blank field gives "Veuillez remplir tous les champs" and no login; otherwise the login result is `authenticateUser` on the trimmed fields; a found row is passed on unchanged with the form as it was; a miss on non-blank fields, whether the username is unknown or the password wrong, shows exactly "Nom d'utilisateur ou mot de passe incorrect" and keeps the fields |
| LoginScreen.LoginFindsRow | app/src/main/java/eben/ezer/lecteurmultimedias/LoginScreen.kt:98-105 | on a valid table, a login naming an existing username succeeds with that row exactly when the trimmed password is its password, and otherwise shows the single wrong-credentials message |
| AdminDashboard.Open | app/src/main/java/eben/ezer/lecteurmultimedias/AdminDashboardScreen.kt:29-31 | the dashboard opens on the list `getAllUsers` returns, with no dialog shown and no message |
| AdminDashboard.OnLongClick | app/src/main/java/eben/ezer/lecteurmultimedias/AdminDashboardScreen.kt:105-111 | a super-admin's card only shows "Impossible de supprimer un super-admin"; any other card opens the delete confirmation for that account and changes nothing else; the list and the creation dialog are kept either way |
| AdminDashboard.OnConfirmDelete | app/src/main/java/eben/ezer/lecteurmultimedias/AdminDashboardScreen.kt:146-154 | the table becomes `deleteUser(target.id)`'s; on success the list is refreshed from the table and "Utilisateur supprimé" shown, on failure the list is kept and the error shown; the dialog closes either way |
| AdminDashboard.OnCreateUser | app/src/main/java/eben/ezer/lecteurmultimedias/AdminDashboardScreen.kt:122-134 | a taken username only shows "Ce nom d'utilisateur existe déjà" and leaves the table; otherwise the table becomes `createUser(…, "user")`'s; success refreshes the list and closes the dialog; a failed insert shows "Erreur lors de la création de l'utilisateur" and changes nothing else |
| AdminDashboard.OnOpenCreate | app/src/main/java/eben/ezer/lecteurmultimedias/AdminDashboardScreen.kt:69 | a newly shown creation dialog starts with empty fields and no error; one already shown is kept as it is; the list, the delete target and the snackbar are unchanged |
| AdminDashboard.OnEditNewUsername | app/src/main/java/eben/ezer/lecteurmultimedias/AdminDashboardScreen.kt:241-244 | typing in the dialog's username field replaces it and clears the dialog's error; the list, the delete target and the snackbar are unchanged |
| AdminDashboard.OnEditNewPassword | app/src/main/java/eben/ezer/lecteurmultimedias/AdminDashboardScreen.kt:254-257 | typing in the dialog's password field replaces it and clears the dialog's error; the list, the delete target and the snackbar are unchanged |
| AdminDashboard.OnConfirmCreate | app/src/main/java/eben/ezer/lecteurmultimedias/AdminDashboardScreen.kt:275-284 | a blank field shows "Veuillez remplir tous les champs" in the dialog and leaves everything else; otherwise the result is `onCreateUser` on the trimmed fields |
| AdminDashboard.Handle | app/src/main/java/eben/ezer/lecteurmultimedias/AdminDashboardScreen.kt:99-165 | an action whose control is not on show changes nothing; only the two confirm buttons can change the table; each offered action runs its handler; the two dismiss buttons close their dialog and change nothing else |
| AdminDashboard.CreateFromDialog | app/src/main/java/eben/ezer/lecteurmultimedias/AdminDashboardScreen.kt:119-135 | confirming the dialog with non-blank fields and a free trimmed username inserts exactly the trimmed account with the role `user` |
| AdminDashboard.RowsAgree | app/src/main/java/eben/ezer/lecteurmultimedias/DatabaseHelper.kt:32 | on a valid table no two rows share an id, so every row is the one row with its id |
| AdminDashboard.OpenCoherent | app/src/main/java/eben/ezer/lecteurmultimedias/AdminDashboardScreen.kt:29 | the list read on opening agrees with the table |
| AdminDashboard.ConfirmDeleteSparesSuperAdmins | app/src/main/java/eben/ezer/lecteurmultimedias/AdminDashboardScreen.kt:105-154 | since only a non-super-admin card can open the delete dialog, confirming it keeps every super-admin row |
| AdminDashboard.ConfirmDeleteSafe | app/src/main/java/eben/ezer/lecteurmultimedias/AdminDashboardScreen.kt:146-154 | the confirmed delete keeps the table valid and the dashboard coherent with it, removes no super-admin and adds nothing |
| AdminDashboard.CreateUserSafe | app/src/main/java/eben/ezer/lecteurmultimedias/AdminDashboardScreen.kt:122-134 | the create handler keeps the table valid and the dashboard coherent, removes nothing, and adds only an account with the role `user` |
| AdminDashboard.HandleSafe | app/src/main/java/eben/ezer/lecteurmultimedias/AdminDashboardScreen.kt:99-165 | every dashboard action keeps the table valid and the dashboard coherent, never removes a super-admin, adds only `user` accounts and never moves the counter back |
| App.Launch | app/src/main/java/eben/ezer/lecteurmultimedias/MainActivity.kt:17-33 | a launch changes the table only through `createDefaultSuperAdmin`, keeping every existing row; it shows the empty login screen with nobody logged in, and barring a fault `admin` exists |
| App.Step | app/src/main/java/eben/ezer/lecteurmultimedias/MainActivity.kt:43-83 | the table changes only through a dashboard action while the dashboard is shown |
| App.LaunchInv | app/src/main/java/eben/ezer/lecteurmultimedias/MainActivity.kt:17-39 | a launch on a valid database reaches a state satisfying the application invariant |
| App.StepPreserves | app/src/main/java/eben/ezer/lecteurmultimedias/MainActivity.kt:43-83 | one user action keeps the invariant, removes no super-admin, adds only `user` accounts, keeps the counter from going back, and changes the table only for a logged-in super-admin |
| App.RunPreserves | app/src/main/java/eben/ezer/lecteurmultimedias/MainActivity.kt:43-83 | the same over any sequence of user actions |
| App.LogoutStep | app/src/main/java/eben/ezer/lecteurmultimedias/MainActivity.kt:62-81 | logout from the dashboard or the media player shows an empty login screen with nobody logged in, the table untouched | |
| App.LoginClickStep | app/src/main/java/eben/ezer/lecteurmultimedias/LoginScreen.kt:90-106 | a click on the login button leaves the table alone and takes the login handler's form; a user it finds is reported to the session and routed by role, and a miss leaves the session as it was |
| App.EnterDashboardStep | app/src/main/java/eben/ezer/lecteurmultimedias/AdminDashboardScreen.kt:29-32 | whenever the dashboard is entered, it shows the list read from the table at that moment, with no dialog and no message |
| App.MediaPlayerStep | app/src/main/java/eben/ezer/lecteurmultimedias/MainActivity.kt:73-81 | on the media player every action other than logout changes nothing |
| App.CreatedAccountLogsIn | app/src/main/java/eben/ezer/lecteurmultimedias/AdminDashboardScreen.kt:119-135 | an account created from the dashboard logs in, after logout, with the fields as typed, and reaches the media player as that new `user` row |
| App.DefaultAdminLogsIn | app/src/main/java/eben/ezer/lecteurmultimedias/MainActivity.kt:35-39 | on a fresh database, `admin`/`admin123` typed straight after launch reaches the dashboard |

## Left out

- `MediaPlayerScreen.kt` and `PermissionHandler.kt`: media playback,
  layout and Android permission handling wrap platform APIs and touch no
  account state. The media player screen is modelled only as a screen with a
  logout button.
- SQLite itself: cursors, `db.close()`, and the destructive `onUpgrade`
  (drop and recreate), which is never triggered at database version 1.
  Rows are assumed to come back in rowid order, which is also the order they
  are stored in.
- Exceptions: only `createUser`'s catch-all is modelled, as the `fault`
  flag, which fails the insert and leaves the table as it was. An exception
  in any other operation would crash the application and is not modelled.
- UserStore.CreateUser: a fault always leaves the table unchanged. In the
  source the `try` also covers `db.close()`, which runs after the insert, so
  an exception there reports failure with the row already inserted. That
  case is not modelled.
- Ids are unbounded integers. `cursor.getInt` truncating a rowid above
  2^31-1 and SQLite's cap at 2^63-1 are not modelled, since neither can be
  reached by a user creating accounts by hand.
- Characters are Unicode scalar values. Kotlin strings are UTF-16, which
  matters only for supplementary characters, none of which is whitespace.
- Compose state machinery: the `isLoading` flag, the password-visibility
  toggle, recomposition, and the snackbar `LaunchedEffect` that shows the
  message and then clears it. The model keeps the last message set.
- Modal dialogs: while a dialog is shown the model still offers the list's
  cards and the floating button, as the state variables allow.
  `AdminDashboard.OnOpenCreate` keeps an open dialog as it is.
- Roles are free strings, as in the table. No role check exists in
  `createUser` or `deleteUser`; the only protection of super-admins is the
  dashboard's long-click guard, and the model adds none.
- Passwords are stored and compared in clear, as in the source.

=== FILE: admin_dashboard.dfy ===
/** `AdminDashboardScreen.kt`: the list of accounts, the long-click guard,
    the delete confirmation and the account-creation dialog, each handler
    lifted into a function from the screen state and the table to the new
    screen state and the table it leaves. */
module AdminDashboard {
  import opened Optional
  import opened Text
  import opened UserStore
  import opened Messages

  /** `CreateUserDialog`'s fields and its error line. The dialog's state
      lives only while it is shown, so each opening starts empty. */
  datatype CreateDialog = CreateDialog(username: string, password: string, error: string)

  const NewDialog := CreateDialog("", "", "")

  /** The dashboard's state: the list on show (a snapshot of the table taken
      when it was last refreshed), the creation dialog if open, the account
      awaiting delete confirmation if any, and the last snackbar message. */
  datatype Dashboard = Dashboard(
    users: seq<User>,
    createDialog: Option<CreateDialog>,
    deleteTarget: Option<User>,
    snackbar: string)

  /** A handler's result: the dashboard and the table afterwards. */
  datatype Handled = Handled(ui: Dashboard, store: Store)

  /** The dashboard as it first appears: the whole table, no dialog open. */
  function Open(s: Store): (d: Dashboard)
    ensures d.users == GetAllUsers(s)
    ensures d.createDialog.None? && d.deleteTarget.None? && d.snackbar == ""
  {
    Dashboard(GetAllUsers(s), None, None, "")
  }

  /** Long click on a card of the list. A super-admin's card only shows a
      snackbar; any other opens the delete confirmation for that account.
      The table is not touched either way. */
  function OnLongClick(d: Dashboard, user: User): (r: Dashboard)
    requires user in d.users
    ensures user.role == SuperAdminRole ==> r.snackbar == CannotDeleteSuperAdmin && r.deleteTarget == d.deleteTarget
    ensures user.role != SuperAdminRole ==> r == d.(deleteTarget := Some(user))
    ensures r.users == d.users && r.createDialog == d.createDialog
  {
    if user.role != SuperAdminRole then d.(deleteTarget := Some(user))
    else d.(snackbar := CannotDeleteSuperAdmin)
  }

  /** The confirm button of the delete dialog: delete the account by id,
      refresh the list from the table on success, report either way, and
      close the dialog whatever happened. */
  function OnConfirmDelete(d: Dashboard, s: Store): (r: Handled)
    requires d.deleteTarget.Some?
    ensures var del := DeleteUser(s, d.deleteTarget.value.id);
            && r.store == del.store
            && (del.ok ==> r.ui.users == GetAllUsers(r.store) && r.ui.snackbar == UserDeleted)
            && (!del.ok ==> r.ui.users == d.users && r.ui.snackbar == DeleteFailed)
    ensures r.ui.deleteTarget.None? && r.ui.createDialog == d.createDialog
  {
    var del := DeleteUser(s, d.deleteTarget.value.id);
    var ui :=
      if del.ok then d.(users := GetAllUsers(del.store), snackbar := UserDeleted)
      else d.(snackbar := DeleteFailed);
    Handled(ui.(deleteTarget := None), del.store)
  }

  /** `onCreateUser`, called by the dialog with trimmed fields. A taken
      username is reported without calling `createUser`. Otherwise the
      account is created with the role `user`; on success the list is
      refreshed and the dialog closed, on failure the dialog stays open. */
  function OnCreateUser(d: Dashboard, s: Store, username: string, password: string, fault: bool): (r: Handled)
    ensures HasUsername(s, username) ==> r == Handled(d.(snackbar := UsernameTaken), s)
    ensures !HasUsername(s, username) ==> r.store == CreateUser(s, username, password, UserRole, fault).store
    ensures var created := !fault && !HasUsername(s, username);
            && (created ==> r.ui.users == GetAllUsers(r.store) && r.ui.createDialog.None? && r.ui.snackbar == UserCreated)
            && (!created ==> r.store == s && r.ui.users == d.users && r.ui.createDialog == d.createDialog && r.ui.snackbar != "")
    ensures !HasUsername(s, username) && fault ==> r == Handled(d.(snackbar := CreateFailed), s)
    ensures r.ui.deleteTarget == d.deleteTarget
  {
    if UserExists(s, username) then
      Handled(d.(snackbar := UsernameTaken), s)
    else
      var c := CreateUser(s, username, password, UserRole, fault);
      if c.ok then
        Handled(d.(users := GetAllUsers(c.store), snackbar := UserCreated, createDialog := None), c.store)
      else
        Handled(d.(snackbar := CreateFailed), s)
  }

  /** The floating button: show the creation dialog, which starts with empty
      fields and no error (a dialog already shown keeps its fields). Nothing
      else on the dashboard changes. */
  function OnOpenCreate(d: Dashboard): (r: Dashboard)
    ensures d.createDialog.None? ==> r.createDialog == Some(NewDialog)
    ensures d.createDialog.Some? ==> r == d
    ensures r.users == d.users && r.deleteTarget == d.deleteTarget && r.snackbar == d.snackbar
  {
    if d.createDialog.Some? then d else d.(createDialog := Some(NewDialog))
  }

  /** Typing in the dialog's username field clears its error line. */
  function OnEditNewUsername(d: Dashboard, value: string): (r: Dashboard)
    requires d.createDialog.Some?
    ensures r.createDialog == Some(d.createDialog.value.(username := value, error := ""))
    ensures r.users == d.users && r.deleteTarget == d.deleteTarget && r.snackbar == d.snackbar
  {
    d.(createDialog := Some(d.createDialog.value.(username := value, error := "")))
  }

  /** Typing in the dialog's password field clears its error line. */
  function OnEditNewPassword(d: Dashboard, value: string): (r: Dashboard)
    requires d.createDialog.Some?
    ensures r.createDialog == Some(d.createDialog.value.(password := value, error := ""))
    ensures r.users == d.users && r.deleteTarget == d.deleteTarget && r.snackbar == d.snackbar
  {
    d.(createDialog := Some(d.createDialog.value.(password := value, error := "")))
  }

  /** The dialog's create button: a field blank once trimmed shows an error
      in the dialog and creates nothing; otherwise `onCreateUser` runs on the
      trimmed fields. */
  function OnConfirmCreate(d: Dashboard, s: Store, fault: bool): (r: Handled)
    requires d.createDialog.Some?
    ensures var dlg := d.createDialog.value;
            IsBlank(dlg.username) || IsBlank(dlg.password) ==>
              r == Handled(d.(createDialog := Some(dlg.(error := FillAllFields))), s)
    ensures var dlg := d.createDialog.value;
            !IsBlank(dlg.username) && !IsBlank(dlg.password) ==>
              r == OnCreateUser(d, s, Trim(dlg.username), Trim(dlg.password), fault)
  {
    var dlg := d.createDialog.value;
    var username := Trim(dlg.username);
    var password := Trim(dlg.password);
    if username == [] || password == [] then
      Handled(d.(createDialog := Some(dlg.(error := FillAllFields))), s)
    else
      OnCreateUser(d, s, username, password, fault)
  }

  /** The user actions the dashboard handles (logout is the session's). */
  datatype Event =
    | LongClick(user: User)
    | ConfirmDelete
    | DismissDelete
    | OpenCreate
    | EditNewUsername(value: string)
    | EditNewPassword(value: string)
    | ConfirmCreate(fault: bool)
    | DismissCreate

  /** Whether the dashboard shows the control behind `e`: a card for each
      listed account, the delete dialog's buttons only while it is shown,
      the creation dialog's fields and buttons only while it is shown. */
  predicate Offers(d: Dashboard, e: Event) {
    match e
    case LongClick(user) => user in d.users
    case ConfirmDelete => d.deleteTarget.Some?
    case DismissDelete => d.deleteTarget.Some?
    case OpenCreate => true
    case EditNewUsername(_) => d.createDialog.Some?
    case EditNewPassword(_) => d.createDialog.Some?
    case ConfirmCreate(_) => d.createDialog.Some?
    case DismissCreate => d.createDialog.Some?
  }

  /** One user action on the dashboard; one it does not offer changes
      nothing. */
  function Handle(d: Dashboard, s: Store, e: Event): (r: Handled)
    ensures !Offers(d, e) ==> r == Handled(d, s)
    ensures r.store != s ==> e.ConfirmDelete? || e.ConfirmCreate?
    ensures Offers(d, e) && e.LongClick? ==> r == Handled(OnLongClick(d, e.user), s)
    ensures Offers(d, e) && e.ConfirmDelete? ==> r == OnConfirmDelete(d, s)
    ensures Offers(d, e) && e.DismissDelete? ==> r == Handled(d.(deleteTarget := None), s)
    ensures Offers(d, e) && e.OpenCreate? ==> r == Handled(OnOpenCreate(d), s)
    ensures Offers(d, e) && e.EditNewUsername? ==> r == Handled(OnEditNewUsername(d, e.value), s)
    ensures Offers(d, e) && e.EditNewPassword? ==> r == Handled(OnEditNewPassword(d, e.value), s)
    ensures Offers(d, e) && e.ConfirmCreate? ==> r == OnConfirmCreate(d, s, e.fault)
    ensures Offers(d, e) && e.DismissCreate? ==> r == Handled(d.(createDialog := None), s)
  {
    if !Offers(d, e) then Handled(d, s)
    else match e
      case LongClick(user) => Handled(OnLongClick(d, user), s)
      case ConfirmDelete => OnConfirmDelete(d, s)
      case DismissDelete => Handled(d.(deleteTarget := None), s)
      case OpenCreate => Handled(OnOpenCreate(d), s)
      case EditNewUsername(v) => Handled(OnEditNewUsername(d, v), s)
      case EditNewPassword(v) => Handled(OnEditNewPassword(d, v), s)
      case ConfirmCreate(fault) => OnConfirmCreate(d, s, fault)
      case DismissCreate => Handled(d.(createDialog := None), s)
  }

  /** Confirming the creation dialog with non-blank fields whose trimmed
      username is free inserts exactly the account of the trimmed fields,
      with the role `user`. */
  lemma CreateFromDialog(d: Dashboard, s: Store)
    requires d.createDialog.Some?
    requires !IsBlank(d.createDialog.value.username) && !IsBlank(d.createDialog.value.password)
    requires !HasUsername(s, Trim(d.createDialog.value.username))
    ensures Handle(d, s, ConfirmCreate(false)).store
         == CreateUser(s, Trim(d.createDialog.value.username), Trim(d.createDialog.value.password), UserRole, false).store
  {
  }

  /** A row shown on screen still describes the table: the row with its id,
      if it has not been deleted, is that very row, and its id is one the
      table has handed out. Rows never change in place and ids are never
      reused, so a stale list can only miss rows or show deleted ones. */
  ghost predicate Agrees(u: User, s: Store) {
    && u.id < s.nextId
    && forall x :: x in s.rows && x.id == u.id ==> x == u
  }

  /** What the dashboard holds about the table: every listed row agrees
      with it, and the account awaiting deletion agrees with it and is not a
      super-admin. */
  ghost predicate Coherent(d: Dashboard, s: Store) {
    && (forall u :: u in d.users ==> Agrees(u, s))
    && (d.deleteTarget.Some? ==> Agrees(d.deleteTarget.value, s) && d.deleteTarget.value.role != SuperAdminRole)
  }

  /** Every row of a valid table agrees with it. */
  lemma RowsAgree(s: Store)
    requires Valid(s)
    ensures forall u :: u in s.rows ==> Agrees(u, s)
  {
    forall u, x | u in s.rows && x in s.rows && x.id == u.id ensures x == u {
      var i :| 0 <= i < |s.rows| && s.rows[i] == u;
      var j :| 0 <= j < |s.rows| && s.rows[j] == x;
      assert s.rows[i].id == s.rows[j].id;
      assert i == j;
    }
  }

  /** The dashboard opened on a valid table is coherent with it. */
  lemma OpenCoherent(s: Store)
    requires Valid(s)
    ensures Coherent(Open(s), s)
  {
    RowsAgree(s);
  }

  /** The delete path never removes a super-admin: confirming a delete
      keeps every super-admin row of the table. */
  lemma ConfirmDeleteSparesSuperAdmins(d: Dashboard, s: Store)
    requires Coherent(d, s) && d.deleteTarget.Some?
    ensures forall x :: x in s.rows && x.role == SuperAdminRole ==> x in OnConfirmDelete(d, s).store.rows
  {
  }

  /** No super-admin row ever disappears from the table. */
  ghost predicate SparesSuperAdmins(s: Store, t: Store) {
    forall x :: x in s.rows && x.role == SuperAdminRole ==> x in t.rows
  }

  /** Every row that appears in the table has the role `user`. */
  ghost predicate AddsOnlyUsers(s: Store, t: Store) {
    forall x :: x in t.rows && x !in s.rows ==> x.role == UserRole
  }

  /** A step from table `s` that keeps the table valid and the dashboard
      coherent with it, removes no super-admin, adds only accounts with the
      role `user` and never moves the id counter back. */
  ghost predicate SafeStep(s: Store, r: Handled) {
    && Valid(r.store)
    && Coherent(r.ui, r.store)
    && SparesSuperAdmins(s, r.store)
    && AddsOnlyUsers(s, r.store)
    && r.store.nextId >= s.nextId
  }

  lemma ConfirmDeleteSafe(d: Dashboard, s: Store)
    requires Valid(s) && Coherent(d, s) && d.deleteTarget.Some?
    ensures SafeStep(s, OnConfirmDelete(d, s))
  {
    DeletePreservesValid(s, d.deleteTarget.value.id);
    RowsAgree(OnConfirmDelete(d, s).store);
  }

  lemma CreateUserSafe(d: Dashboard, s: Store, username: string, password: string, fault: bool)
    requires Valid(s) && Coherent(d, s)
    ensures SafeStep(s, OnCreateUser(d, s, username, password, fault))
  {
    var r := OnCreateUser(d, s, username, password, fault);
    CreatePreservesValid(s, username, password, UserRole, fault);
    if r.store != s {
      RowsAgree(r.store);
      assert forall x :: x in r.store.rows ==> x in s.rows || x == User(s.nextId, username, password, UserRole);
    }
  }

  /** Every dashboard action keeps the table valid and the dashboard
      coherent with it, never removes a super-admin and only ever adds
      accounts with the role `user`. */
  lemma HandleSafe(d: Dashboard, s: Store, e: Event)
    requires Valid(s) && Coherent(d, s)
    ensures SafeStep(s, Handle(d, s, e))
  {
    if Offers(d, e) {
      match e
      case ConfirmDelete => ConfirmDeleteSafe(d, s);
      case ConfirmCreate(fault) =>
        var dlg := d.createDialog.value;
        if !IsBlank(dlg.username) && !IsBlank(dlg.password) {
          CreateUserSafe(d, s, Trim(dlg.username), Trim(dlg.password), fault);
        }
      case _ =>
    }
  }
}

=== FILE: app.dfy ===
/** `MediaUserApp` as a whole: the launch, then the screens taking turns on
    one table. Each screen's own state lives only while that screen is
    shown, so it starts afresh whenever the screen is entered. */
module App {
  import opened Optional
  import opened Text
  import opened UserStore
  import Session
  import LoginScreen
  import AdminDashboard

  /** The table, the session, and the state of the login and dashboard
      screens (each meaningful while its screen is shown). */
  datatype State = State(
    store: Store,
    session: Session.SessionState,
    login: LoginScreen.Form,
    dashboard: AdminDashboard.Dashboard)

  /** The user actions of all three screens. */
  datatype Event =
    | EditUsername(value: string)
    | EditPassword(value: string)
    | ClickLogin
    | OnDashboard(action: AdminDashboard.Event)
    | Logout

  /** `onCreate` on an existing database: the bootstrap, then the login
      screen with nobody logged in. */
  function Launch(s: Store, fault: bool): (a: State)
    ensures a.store == Session.CreateDefaultSuperAdmin(s, fault)
    ensures a.session == Session.Start && a.login == LoginScreen.EmptyForm
    ensures !fault ==> HasUsername(a.store, Session.DefaultAdminUsername)
  {
    var t := Session.CreateDefaultSuperAdmin(s, fault);
    State(t, Session.Start, LoginScreen.EmptyForm, AdminDashboard.Open(t))
  }

  /** Logout from either of the two other screens. */
  function LoggedOut(a: State): State {
    a.(session := Session.Next(a.session, Session.LoggedOut), login := LoginScreen.EmptyForm)
  }

  /** One user action. An action the screen on show does not offer changes
      nothing. A login that routes elsewhere than the login screen opens the
      destination afresh; a login with an unknown role stays on the login
      screen with its fields as they were. */
  function Step(a: State, e: Event): (r: State)
    ensures r.store != a.store ==> a.session.screen == Session.AdminDashboard && e.OnDashboard?
  {
    match a.session.screen
    case Login =>
      (match e
       case EditUsername(v) => a.(login := LoginScreen.EditUsername(a.login, v))
       case EditPassword(v) => a.(login := LoginScreen.EditPassword(a.login, v))
       case ClickLogin =>
         var c := LoginScreen.OnLoginClick(a.store, a.login);
         (match c.loggedIn
          case None => a.(login := c.form)
          case Some(user) =>
            var sess := Session.Next(a.session, Session.LoginSucceeded(user));
            var dashboard := if sess.screen == Session.AdminDashboard then AdminDashboard.Open(a.store) else a.dashboard;
            a.(session := sess, login := c.form, dashboard := dashboard))
       case _ => a)
    case AdminDashboard =>
      (match e
       case OnDashboard(action) =>
         var r := AdminDashboard.Handle(a.dashboard, a.store, action);
         a.(store := r.store, dashboard := r.ui)
       case Logout => LoggedOut(a)
       case _ => a)
    case MediaPlayer =>
      if e.Logout? then LoggedOut(a) else a
  }

  /** The state after `events`, in order. */
  function Run(a: State, events: seq<Event>): State
    decreases |events|
  {
    if events == [] then a else Run(Step(a, events[0]), events[1..])
  }

  /** What holds of every state the application can reach: the table is
      valid, the session consistent, and the dashboard, while shown,
      coherent with the table. */
  ghost predicate Inv(a: State) {
    && Valid(a.store)
    && Session.Consistent(a.session)
    && (a.session.screen == Session.AdminDashboard ==> AdminDashboard.Coherent(a.dashboard, a.store))
  }

  /** A launch on a valid database reaches a state satisfying `Inv`. */
  lemma LaunchInv(s: Store, fault: bool)
    requires Valid(s)
    ensures Inv(Launch(s, fault))
  {
    Session.BootstrapPreservesValid(s, fault);
  }

  /** One step keeps `Inv`, removes no super-admin, adds only accounts with
      the role `user`, and changes the table only from the dashboard of a
      logged-in super-admin. */
  lemma StepPreserves(a: State, e: Event)
    requires Inv(a)
    ensures var r := Step(a, e);
            && Inv(r)
            && AdminDashboard.SparesSuperAdmins(a.store, r.store)
            && AdminDashboard.AddsOnlyUsers(a.store, r.store)
            && a.store.nextId <= r.store.nextId
            && (r.store != a.store ==> a.session.currentUser.Some? && a.session.currentUser.value.role == SuperAdminRole)
  {
    match a.session.screen
    case Login =>
      if e.ClickLogin? {
        var c := LoginScreen.OnLoginClick(a.store, a.login);
        if c.loggedIn.Some? {
          var sess := Session.Next(a.session, Session.LoginSucceeded(c.loggedIn.value));
          if sess.screen == Session.AdminDashboard {
            AdminDashboard.OpenCoherent(a.store);
          }
        }
      }
    case AdminDashboard =>
      if e.OnDashboard? {
        AdminDashboard.HandleSafe(a.dashboard, a.store, e.action);
      }
    case MediaPlayer =>
  }

  /** Over any run from a state satisfying `Inv`: `Inv` still holds, no
      super-admin has been removed, every account added has the role
      `user`, and the id counter has not gone back. */
  lemma {:induction false} RunPreserves(a: State, events: seq<Event>)
    requires Inv(a)
    ensures var r := Run(a, events);
            && Inv(r)
            && AdminDashboard.SparesSuperAdmins(a.store, r.store)
            && AdminDashboard.AddsOnlyUsers(a.store, r.store)
            && a.store.nextId <= r.store.nextId
    decreases |events|
  {
    if events != [] {
      var b := Step(a, events[0]);
      StepPreserves(a, events[0]);
      RunPreserves(b, events[1..]);
    }
  }

  /** A dashboard action acts on the table and the dashboard alone. */
  lemma DashboardStep(a: State, action: AdminDashboard.Event)
    requires a.session.screen == Session.AdminDashboard
    ensures var h := AdminDashboard.Handle(a.dashboard, a.store, action);
            Step(a, OnDashboard(action)) == a.(store := h.store, dashboard := h.ui)
  {
  }

  /** Logout from the dashboard or the media player returns to an empty
      login screen with nobody logged in, the table untouched. */
  lemma LogoutStep(a: State)
    requires a.session.screen != Session.Login
    ensures Step(a, Logout) == a.(session := Session.Start, login := LoginScreen.EmptyForm)
  {
  }

  /** A click on the login button hands the form to the login handler: the
      form becomes the handler's, and a user it finds is reported to the
      session, which routes it by role; a miss leaves the session as it
      was. */
  lemma LoginClickStep(a: State)
    requires a.session.screen == Session.Login
    ensures var c := LoginScreen.OnLoginClick(a.store, a.login);
            var r := Step(a, ClickLogin);
            && r.store == a.store
            && r.login == c.form
            && r.session == (if c.loggedIn.Some? then Session.Next(a.session, Session.LoginSucceeded(c.loggedIn.value)) else a.session)
  {
  }

  /** Entering the dashboard shows the list read from the table at that
      moment, with no dialog open and no message. */
  lemma EnterDashboardStep(a: State, e: Event)
    requires a.session.screen != Session.AdminDashboard
    requires Step(a, e).session.screen == Session.AdminDashboard
    ensures Step(a, e).dashboard == AdminDashboard.Open(a.store)
  {
  }

  /** The media player reacts to logout alone. */
  lemma MediaPlayerStep(a: State, e: Event)
    requires a.session.screen == Session.MediaPlayer && !e.Logout?
    ensures Step(a, e) == a
  {
  }

  /** Typing a username and a password on the login screen fills the two
      fields and clears the error line. */
  lemma TypeStep(a: State, u: string, p: string)
    requires a.session.screen == Session.Login
    ensures Step(Step(a, EditUsername(u)), EditPassword(p)) == a.(login := LoginScreen.Form(u, p, ""))
  {
  }

  /** A click on the login button that finds a user opens that user's
      screen. */
  lemma ClickStep(a: State)
    requires a.session.screen == Session.Login
    requires LoginScreen.OnLoginClick(a.store, a.login).loggedIn.Some?
    ensures Step(a, ClickLogin).session == Session.OnLoginSuccess(LoginScreen.OnLoginClick(a.store, a.login).loggedIn.value)
  {
  }

  /** End to end: an account created from the dashboard with fields `u` and
      `p` (as typed, before trimming) can, after logout, log in with the same
      fields as typed, and reaches the media player as a `user`. */
  lemma CreatedAccountLogsIn(a: State, u: string, p: string)
    requires Valid(a.store) && a.session.screen == Session.AdminDashboard
    requires a.dashboard.createDialog == Some(AdminDashboard.CreateDialog(u, p, ""))
    requires !IsBlank(u) && !IsBlank(p) && !HasUsername(a.store, Trim(u))
    ensures var created := Step(a, OnDashboard(AdminDashboard.ConfirmCreate(false)));
            var out := Step(created, Logout);
            var typed := Step(Step(out, EditUsername(u)), EditPassword(p));
            var r := Step(typed, ClickLogin);
            r.session == Session.SessionState(Session.MediaPlayer, Some(User(a.store.nextId, Trim(u), Trim(p), UserRole)))
  {
    var t := CreateUser(a.store, Trim(u), Trim(p), UserRole, false).store;
    AdminDashboard.CreateFromDialog(a.dashboard, a.store);
    DashboardStep(a, AdminDashboard.ConfirmCreate(false));
    var created := Step(a, OnDashboard(AdminDashboard.ConfirmCreate(false)));
    assert created.store == t;
    LogoutStep(created);
    var out := Step(created, Logout);
    TypeStep(out, u, p);
    var typed := Step(Step(out, EditUsername(u)), EditPassword(p));
    assert typed.store == t && typed.login == LoginScreen.Form(u, p, "");
    CreateThenAuthenticate(a.store, Trim(u), Trim(p), UserRole);
    ClickStep(typed);
  }

  /** On a fresh database, `admin`/`admin123` logs in straight after launch
      and reaches the administration dashboard. */
  lemma DefaultAdminLogsIn()
    ensures var a := Launch(Empty, false);
            var typed := Step(Step(a, EditUsername("admin")), EditPassword("admin123"));
            Step(typed, ClickLogin).session.screen == Session.AdminDashboard
  {
    var a := Launch(Empty, false);
    var admin := User(1, Session.DefaultAdminUsername, Session.DefaultAdminPassword, SuperAdminRole);
    Session.BootstrapOnFreshStore();
    assert a.store.rows == [admin];
    assert TrimmedAt("admin", 0, 5, "admin");
    TrimUnique("admin", 0, 5, "admin");
    assert TrimmedAt("admin123", 0, 8, "admin123");
    TrimUnique("admin123", 0, 8, "admin123");
    AuthenticateFindsRow(a.store, admin, "admin123");
    TypeStep(a, "admin", "admin123");
    ClickStep(Step(Step(a, EditUsername("admin")), EditPassword("admin123")));
  }
}

=== FILE: login_screen.dfy ===
/** `LoginScreen.kt`: the two text fields, the error line and the login
    button's handler. */
module LoginScreen {
  import opened Optional
  import opened Text
  import opened UserStore
  import opened Messages

  /** The screen's field contents and its error line (empty: none shown). */
  datatype Form = Form(username: string, password: string, error: string)

  /** The screen as it first appears. */
  const EmptyForm := Form("", "", "")

  /** Typing in the username field replaces it and clears the error line. */
  function EditUsername(f: Form, value: string): (r: Form)
    ensures r.username == value && r.password == f.password
    ensures r.error == ""
  {
    Form(value, f.password, "")
  }

  /** Typing in the password field replaces it and clears the error line. */
  function EditPassword(f: Form, value: string): (r: Form)
    ensures r.username == f.username && r.password == value
    ensures r.error == ""
  {
    Form(f.username, value, "")
  }

  /** What a click on the login button yields: the form afterwards, and the
      user handed to `onLoginSuccess`, if any. */
  datatype Click = Click(form: Form, loggedIn: Option<User>)

  /** The login button. A field that is blank once trimmed is refused before
      the store is consulted; otherwise the trimmed fields are looked up and
      a found row is passed on as it is, while a miss shows one message
      whatever the reason (unknown username or wrong password). Reading the
      store never changes it, so no new store is returned. */
  function OnLoginClick(s: Store, f: Form): (r: Click)
    ensures IsBlank(f.username) || IsBlank(f.password) ==> r == Click(f.(error := FillAllFields), None)
    ensures !IsBlank(f.username) && !IsBlank(f.password) ==>
              r.loggedIn == Authenticate(s, Trim(f.username), Trim(f.password))
    ensures r.loggedIn.Some? ==> r.form == f && r.loggedIn.value in s.rows
    ensures !IsBlank(f.username) && !IsBlank(f.password) && r.loggedIn.None? ==>
              r.form == f.(error := WrongCredentials)
    ensures r.loggedIn.None? ==> r.form.username == f.username && r.form.password == f.password && r.form.error != ""
  {
    var username := Trim(f.username);
    var password := Trim(f.password);
    if username == [] || password == [] then
      Click(f.(error := FillAllFields), None)
    else
      match Authenticate(s, username, password)
      case Some(user) => Click(f, Some(user))
      case None => Click(f.(error := WrongCredentials), None)
  }

  /** On a valid table, non-blank fields log in exactly the row whose
      username and password equal the trimmed fields, and every miss shows
      the same message. */
  lemma LoginFindsRow(s: Store, f: Form, x: User)
    requires Valid(s) && x in s.rows
    requires !IsBlank(f.username) && !IsBlank(f.password)
    requires Trim(f.username) == x.username
    ensures OnLoginClick(s, f) ==
              if Trim(f.password) == x.password then Click(f, Some(x))
              else Click(f.(error := WrongCredentials), None)
  {
    AuthenticateFindsRow(s, x, Trim(f.password));
  }
}

=== FILE: messages.dfy ===
/** The user-facing messages of the login and administration screens. */
module Messages {
  const FillAllFields := "Veuillez remplir tous les champs"
  const WrongCredentials := "Nom d'utilisateur ou mot de passe incorrect"
  const CannotDeleteSuperAdmin := "Impossible de supprimer un super-admin"
  const UsernameTaken := "Ce nom d'utilisateur existe déjà"
  const UserCreated := "Utilisateur créé avec succès"
  const CreateFailed := "Erreur lors de la création de l'utilisateur"
  const UserDeleted := "Utilisateur supprimé"
  const DeleteFailed := "Erreur lors de la suppression"
}

=== FILE: optional.dfy ===
/** Kotlin's nullable values. */
module Optional {

  /** `T?`: either no value (`null`) or some value. */
  datatype Option<+T> = None | Some(value: T)
}

=== FILE: session.dfy ===
/** `MainActivity.kt`: the launch-time bootstrap of the default super-admin
    account, and the screen/session state `MediaUserApp` keeps. */
module Session {
  import opened Optional
  import opened UserStore

  const DefaultAdminUsername := "admin"
  const DefaultAdminPassword := "admin123"

  /** `createDefaultSuperAdmin`, run on every launch: when no account is
      named `admin`, create `admin`/`admin123` as a super-admin. The insert's
      result is ignored, so a platform fault (`fault`) leaves the table as it
      was and the launch goes on. */
  function CreateDefaultSuperAdmin(s: Store, fault: bool): (r: Store)
    ensures HasUsername(s, DefaultAdminUsername) ==> r == s
    ensures !fault ==> HasUsername(r, DefaultAdminUsername)
    ensures fault ==> r == s
    ensures r == s || r == Store(s.rows + [User(s.nextId, DefaultAdminUsername, DefaultAdminPassword, SuperAdminRole)], s.nextId + 1)
  {
    if UserExists(s, DefaultAdminUsername) then
      s
    else
      var t := CreateUser(s, DefaultAdminUsername, DefaultAdminPassword, SuperAdminRole, fault).store;
      assert t != s ==> t.rows[|s.rows|] in t.rows;
      t
  }

  /** The bootstrap keeps the table valid. */
  lemma BootstrapPreservesValid(s: Store, fault: bool)
    requires Valid(s)
    ensures Valid(CreateDefaultSuperAdmin(s, fault))
  {
    CreatePreservesValid(s, DefaultAdminUsername, DefaultAdminPassword, SuperAdminRole, fault);
  }

  /** Launching again after a launch that created (or found) `admin` changes
      nothing, whatever the second launch's insert would do. */
  lemma BootstrapIdempotent(s: Store, fault1: bool, fault2: bool)
    requires !fault1 || HasUsername(s, DefaultAdminUsername)
    ensures var once := CreateDefaultSuperAdmin(s, fault1);
            CreateDefaultSuperAdmin(once, fault2) == once
  {
  }

  /** On a fresh database the bootstrap leaves exactly one row:
      `admin`/`admin123`, a super-admin with id 1. */
  lemma BootstrapOnFreshStore()
    ensures CreateDefaultSuperAdmin(Empty, false).rows
         == [User(1, DefaultAdminUsername, DefaultAdminPassword, SuperAdminRole)]
  {
  }

  /** The three screens of the `Screen` sealed class. */
  datatype Screen = Login | AdminDashboard | MediaPlayer

  /** `MediaUserApp`'s two state variables. */
  datatype SessionState = SessionState(screen: Screen, currentUser: Option<User>)

  /** The state before anyone logs in. */
  const Start := SessionState(Login, None)

  /** `onLoginSuccess`: record the user and pick the screen from the role
      string. A role other than the two known ones keeps the login screen,
      but the user is recorded all the same. */
  function OnLoginSuccess(user: User): (r: SessionState)
    ensures r.currentUser == Some(user)
    ensures r.screen == AdminDashboard <==> user.role == SuperAdminRole
    ensures r.screen == MediaPlayer <==> user.role == UserRole
    ensures r.screen == Login <==> user.role != SuperAdminRole && user.role != UserRole
  {
    var screen :=
      if user.role == SuperAdminRole then AdminDashboard
      else if user.role == UserRole then MediaPlayer
      else Login;
    SessionState(screen, Some(user))
  }

  /** The events `MediaUserApp` reacts to: a successful login reported by
      the login screen, and the logout button of either other screen. */
  datatype Event = LoginSucceeded(user: User) | LoggedOut

  /** Whether the screen on show offers `e`: only the login screen reports
      logins, and only the two other screens have a logout button. */
  predicate Offers(screen: Screen, e: Event) {
    match e
    case LoginSucceeded(_) => screen == Login
    case LoggedOut => screen != Login
  }

  /** One transition of `MediaUserApp`. An event the current screen does not
      offer cannot happen there and leaves the state as it is. Logout, from
      either screen, forgets the user and shows the login screen. */
  function Next(sess: SessionState, e: Event): (r: SessionState)
    ensures !Offers(sess.screen, e) ==> r == sess
    ensures Offers(sess.screen, e) && e.LoggedOut? ==> r == Start
    ensures Offers(sess.screen, e) && e.LoginSucceeded? ==> r == OnLoginSuccess(e.user)
  {
    if !Offers(sess.screen, e) then sess
    else match e
      case LoginSucceeded(user) => OnLoginSuccess(user)
      case LoggedOut => Start
  }

  /** The two role-specific screens are only ever shown to a logged-in user
      holding that role. */
  ghost predicate Consistent(sess: SessionState) {
    && (sess.screen == AdminDashboard ==> sess.currentUser.Some? && sess.currentUser.value.role == SuperAdminRole)
    && (sess.screen == MediaPlayer ==> sess.currentUser.Some? && sess.currentUser.value.role == UserRole)
  }

  /** The state after `events`, in order. */
  function Run(sess: SessionState, events: seq<Event>): SessionState
    decreases |events|
  {
    if events == [] then sess else Run(Next(sess, events[0]), events[1..])
  }

  /** The dashboard is entered only from the login screen, by a login whose
      user is a super-admin. */
  lemma DashboardEntry(sess: SessionState, e: Event)
    requires sess.screen != AdminDashboard && Next(sess, e).screen == AdminDashboard
    ensures sess.screen == Login && e.LoginSucceeded? && e.user.role == SuperAdminRole
  {
  }

  /** Every state reachable from the start is consistent. */
  lemma {:induction false} ReachableConsistent(sess: SessionState, events: seq<Event>)
    requires Consistent(sess)
    ensures Consistent(Run(sess, events))
    decreases |events|
  {
    if events != [] {
      var next := Next(sess, events[0]);
      assert Consistent(next);
      ReachableConsistent(next, events[1..]);
    }
  }
}

=== FILE: text.dfy ===
/** Kotlin's `String.trim()`, the only string operation the login and
    account-creation forms apply to their inputs. */
module Text {

  /** Kotlin's `Char.isWhitespace()` on the JVM: a Java whitespace character
      or a Unicode space separator. Nothing proved below depends on which
      characters are in this set. */
  predicate IsWhitespace(c: char) {
    || ('\t' <= c <= '\r')             // tab, line feed, vertical tab, form feed, carriage return
    || ('\U{1C}' <= c <= '\U{1F}')     // file, group, record and unit separators
    || c == ' ' || c == '\U{A0}' || c == '\U{1680}'
    || ('\U{2000}' <= c <= '\U{200A}')
    || c == '\U{2028}' || c == '\U{2029}' || c == '\U{202F}' || c == '\U{205F}' || c == '\U{3000}'
  }

  /** Every character of `s` is whitespace (the empty string included). */
  predicate IsBlank(s: string) {
    forall k :: 0 <= k < |s| ==> IsWhitespace(s[k])
  }

  /** `t` is `s[i..j]`, every character of `s` outside that slice is
      whitespace, and the slice, unless empty, neither starts nor ends with
      whitespace: what trimming `s` yields, independent of how it is
      computed. */
  ghost predicate TrimmedAt(s: string, i: nat, j: nat, t: string) {
    && i <= j <= |s|
    && t == s[i..j]
    && (forall k :: 0 <= k < i ==> IsWhitespace(s[k]))
    && (forall k :: j <= k < |s| ==> IsWhitespace(s[k]))
    && (i < j ==> !IsWhitespace(s[i]) && !IsWhitespace(s[j - 1]))
  }

  /** The forward scan of `trim()`: the first position at or after `i`
      holding a non-whitespace character, or `|s|` if there is none. */
  function SkipForward(s: string, i: nat): (r: nat)
    requires i <= |s|
    ensures i <= r <= |s|
    ensures forall k :: i <= k < r ==> IsWhitespace(s[k])
    ensures r < |s| ==> !IsWhitespace(s[r])
    decreases |s| - i
  {
    if i < |s| && IsWhitespace(s[i]) then SkipForward(s, i + 1) else i
  }

  /** The backward scan of `trim()`, which never passes `lo`, where the
      forward scan stopped: the position just after the last non-whitespace
      character before `j`, or `lo` if `s[lo..j]` is all whitespace. */
  function SkipBackward(s: string, lo: nat, j: nat): (r: nat)
    requires lo <= j <= |s|
    ensures lo <= r <= j
    ensures forall k :: r <= k < j ==> IsWhitespace(s[k])
    ensures lo < r ==> !IsWhitespace(s[r - 1])
    decreases j
  {
    if lo < j && IsWhitespace(s[j - 1]) then SkipBackward(s, lo, j - 1) else j
  }

  /** Kotlin's `trim()`: strips whitespace at both ends. The result is empty
      exactly when `s` is blank, which is what the forms' `isEmpty()` test
      on a trimmed field decides. */
  function Trim(s: string): (r: string)
    ensures exists i: nat, j: nat :: TrimmedAt(s, i, j, r)
    ensures r == [] <==> IsBlank(s)
  {
    var i := SkipForward(s, 0);
    var j := SkipBackward(s, i, |s|);
    assert TrimmedAt(s, i, j, s[i..j]);
    s[i..j]
  }

  /** The description `TrimmedAt` determines the trimmed string: whatever
      slice satisfies it is what `Trim` returns. Together with `Trim`'s own
      contract, `Trim(s) == t` holds exactly when some `i, j` satisfy
      `TrimmedAt(s, i, j, t)`. */
  lemma TrimUnique(s: string, i: nat, j: nat, t: string)
    requires TrimmedAt(s, i, j, t)
    ensures Trim(s) == t
  {
    var i0 := SkipForward(s, 0);
    if i < j {
      assert i0 == i;
      assert SkipBackward(s, i0, |s|) == j;
    } else {
      assert i0 == |s|;
    }
  }

  /** Trimming twice is trimming once. */
  lemma TrimIdempotent(s: string)
    ensures Trim(Trim(s)) == Trim(s)
  {
    var t := Trim(s);
    var i: nat, j: nat :| TrimmedAt(s, i, j, t);
    if t != [] {
      assert t[0] == s[i] && t[|t| - 1] == s[j - 1];
    }
    assert TrimmedAt(t, 0, |t|, t);
    TrimUnique(t, 0, |t|, t);
  }
}

=== FILE: user_store.dfy ===
/** The local `users` table and the five operations `DatabaseHelper` offers
    on it, with the table modelled as an in-memory relation instead of
    SQLite. */
module UserStore {
  import opened Optional

  /** The role strings the application gives meaning to. The column itself
      holds any text. */
  const SuperAdminRole := "super-admin"
  const UserRole := "user"

  /** One row of the `users` table. */
  datatype User = User(id: int, username: string, password: string, role: string)

  /** The table's rows in rowid order, the order a full scan returns them,
      together with the AUTOINCREMENT counter: `nextId` is one more than the
      largest id ever handed out, 1 on a fresh database. */
  datatype Store = Store(rows: seq<User>, nextId: int)

  /** What an insert or a delete reports (`true` for success), with the
      table as it stands afterwards. */
  datatype Outcome = Outcome(ok: bool, store: Store)

  /** The table as `onCreate` leaves it. */
  const Empty := Store([], 1)

  /** Rowid order: every later row carries a larger id. */
  ghost predicate IdsIncreasing(rows: seq<User>) {
    forall i, j :: 0 <= i < j < |rows| ==> rows[i].id < rows[j].id
  }

  /** The `UNIQUE` constraint on `username`. */
  ghost predicate UniqueUsernames(rows: seq<User>) {
    forall x, y :: x in rows && y in rows && x.username == y.username ==> x == y
  }

  /** What the table's declaration guarantees of every state of the
      database: ids are positive, below the counter and in scan order, and
      usernames are unique. */
  ghost predicate Valid(s: Store) {
    && s.nextId >= 1
    && (forall x :: x in s.rows ==> 1 <= x.id < s.nextId)
    && IdsIncreasing(s.rows)
    && UniqueUsernames(s.rows)
  }

  ghost predicate HasUsername(s: Store, username: string) {
    exists x :: x in s.rows && x.username == username
  }

  ghost predicate HasId(s: Store, id: int) {
    exists x :: x in s.rows && x.id == id
  }

  ghost predicate HasCredentials(s: Store, username: string, password: string) {
    exists x :: x in s.rows && x.username == username && x.password == password
  }

  /** The position of the first row satisfying `p`: the row a cursor over
      `SELECT … WHERE p` reaches first. */
  function FirstMatch(rows: seq<User>, p: User -> bool): (r: Option<nat>)
    ensures r.Some? ==> r.value < |rows| && p(rows[r.value])
    ensures r.Some? ==> forall k :: 0 <= k < r.value ==> !p(rows[k])
    ensures r.None? <==> forall k :: 0 <= k < |rows| ==> !p(rows[k])
  {
    if |rows| == 0 then None
    else if p(rows[0]) then Some(0)
    else match FirstMatch(rows[1..], p)
      case None => None
      case Some(k) => Some(k + 1)
  }

  /** `userExists`: whether the query on `username` returns any row. */
  function UserExists(s: Store, username: string): (b: bool)
    ensures b <==> HasUsername(s, username)
  {
    var r := FirstMatch(s.rows, (x: User) => x.username == username);
    assert r.Some? ==> s.rows[r.value] in s.rows;
    r.Some?
  }

  /** `authenticateUser`: the first row whose username and password both
      equal the arguments exactly, or `null`. */
  function Authenticate(s: Store, username: string, password: string): (r: Option<User>)
    ensures r.Some? <==> HasCredentials(s, username, password)
    ensures r.Some? ==> r.value in s.rows
    ensures r.Some? ==> r.value.username == username && r.value.password == password
  {
    match FirstMatch(s.rows, (x: User) => x.username == username && x.password == password)
    case None => None
    case Some(k) => Some(s.rows[k])
  }

  /** `createUser`: inserts a row with the next id. The insert is refused,
      leaving the table as it was, when the username is taken; `fault`
      stands for any other exception the platform raises during the insert,
      which the source catches and reports as `false`. */
  function CreateUser(s: Store, username: string, password: string, role: string, fault: bool): (r: Outcome)
    ensures r.ok <==> !fault && !HasUsername(s, username)
    ensures !r.ok ==> r.store == s
    ensures r.ok ==> r.store == Store(s.rows + [User(s.nextId, username, password, role)], s.nextId + 1)
  {
    if fault || UserExists(s, username) then
      Outcome(false, s)
    else
      Outcome(true, Store(s.rows + [User(s.nextId, username, password, role)], s.nextId + 1))
  }

  /** An insert keeps the table valid: the new row's id is above every id
      in the table, and the `UNIQUE` check rules out a second row with its
      username. */
  lemma CreatePreservesValid(s: Store, username: string, password: string, role: string, fault: bool)
    requires Valid(s)
    ensures Valid(CreateUser(s, username, password, role, fault).store)
  {
    var r := CreateUser(s, username, password, role, fault);
    if r.ok {
      var row := User(s.nextId, username, password, role);
      assert forall x :: x in r.store.rows <==> x in s.rows || x == row;
    }
  }

  /** The rows whose id differs from `id`, in their original order: what is
      left after `DELETE … WHERE id = ?`. */
  function Without(rows: seq<User>, id: int): (r: seq<User>)
    ensures forall x :: x in r <==> x in rows && x.id != id
    ensures |r| <= |rows|
    ensures |r| < |rows| <==> exists x :: x in rows && x.id == id
    ensures |r| == |rows| ==> r == rows
  {
    if |rows| == 0 then []
    else
      var tail := Without(rows[1..], id);
      assert forall x :: x in rows <==> x == rows[0] || x in rows[1..];
      if rows[0].id == id then
        assert rows[0] in rows;
        tail
      else
        [rows[0]] + tail
  }

  /** Deleting rows keeps the remaining ones in rowid order. */
  lemma {:induction false} WithoutKeepsOrder(rows: seq<User>, id: int)
    requires IdsIncreasing(rows)
    ensures IdsIncreasing(Without(rows, id))
  {
    if |rows| > 0 {
      assert IdsIncreasing(rows[1..]);
      WithoutKeepsOrder(rows[1..], id);
      var tail := Without(rows[1..], id);
      if rows[0].id != id {
        forall j | 0 <= j < |tail| ensures rows[0].id < tail[j].id {
          assert tail[j] in rows[1..];
        }
      }
    }
  }

  /** `deleteUser`: removes the row with that id and reports whether one
      was removed. The counter is untouched, so the id is never handed out
      again. */
  function DeleteUser(s: Store, id: int): (r: Outcome)
    ensures r.ok <==> HasId(s, id)
    ensures !r.ok ==> r.store == s
    ensures r.store.nextId == s.nextId
    ensures forall x :: x in r.store.rows <==> x in s.rows && x.id != id
  {
    var kept := Without(s.rows, id);
    Outcome(|kept| < |s.rows|, Store(kept, s.nextId))
  }

  /** A delete keeps the table valid. */
  lemma DeletePreservesValid(s: Store, id: int)
    requires Valid(s)
    ensures Valid(DeleteUser(s, id).store)
  {
    WithoutKeepsOrder(s.rows, id);
  }

  /** `getAllUsers`: every row, in scan order (increasing ids on a valid
      table). */
  function GetAllUsers(s: Store): (r: seq<User>)
    ensures forall x :: x in r <==> x in s.rows
    ensures multiset(r) == multiset(s.rows)
    ensures Valid(s) ==> IdsIncreasing(r)
  {
    s.rows
  }

  /** On a valid table a username and password find the row holding that
      username exactly when the password is that row's; the unknown-user
      and wrong-password cases both come back empty. */
  lemma AuthenticateFindsRow(s: Store, x: User, password: string)
    requires Valid(s) && x in s.rows
    ensures Authenticate(s, x.username, password) == if password == x.password then Some(x) else None
  {
    var r := Authenticate(s, x.username, password);
    if r.Some? {
      assert r.value == x;
    }
  }

  /** Round trip: after a successful `createUser(u, p, role)`,
      `authenticateUser(u, p)` returns the new row, with the next id. */
  lemma CreateThenAuthenticate(s: Store, username: string, password: string, role: string)
    requires Valid(s) && !HasUsername(s, username)
    ensures CreateUser(s, username, password, role, false).ok
    ensures Authenticate(CreateUser(s, username, password, role, false).store, username, password)
         == Some(User(s.nextId, username, password, role))
  {
    var t := CreateUser(s, username, password, role, false).store;
    var row := User(s.nextId, username, password, role);
    assert row in t.rows by { assert t.rows[|s.rows|] == row; }
    AuthenticateFindsRow(t, row, password);
  }

  /** A second `createUser` with a username that was just inserted fails,
      whatever its password and role, and leaves the table as the first
      call left it. */
  lemma CreateTwiceFails(s: Store, username: string, p1: string, r1: string, p2: string, r2: string, fault: bool)
    requires CreateUser(s, username, p1, r1, false).ok
    ensures var t := CreateUser(s, username, p1, r1, false).store;
            CreateUser(t, username, p2, r2, fault) == Outcome(false, t)
  {
    var t := CreateUser(s, username, p1, r1, false).store;
    assert t.rows[|s.rows|] in t.rows;
  }

  /** After a successful `deleteUser(id)` no row has that id, so deleting
      it again reports failure and changes nothing. */
  lemma DeleteTwiceFails(s: Store, id: int)
    requires DeleteUser(s, id).ok
    ensures var t := DeleteUser(s, id).store;
            !HasId(t, id) && DeleteUser(t, id) == Outcome(false, t)
  {
  }

  /** One call of a store operation. */
  datatype Op =
    | Create(username: string, password: string, role: string, fault: bool)
    | Delete(id: int)

  function Exec(s: Store, op: Op): Outcome {
    match op
    case Create(u, p, role, fault) => CreateUser(s, u, p, role, fault)
    case Delete(id) => DeleteUser(s, id)
  }

  /** The table after running `ops` in order from `s`. */
  function Apply(s: Store, ops: seq<Op>): Store
    decreases |ops|
  {
    if ops == [] then s else Apply(Exec(s, ops[0]).store, ops[1..])
  }

  /** The ids handed out by the successful inserts among `ops`, in order. */
  function Issued(s: Store, ops: seq<Op>): seq<int>
    decreases |ops|
  {
    if ops == [] then []
    else
      var r := Exec(s, ops[0]);
      (if ops[0].Create? && r.ok then [s.nextId] else []) + Issued(r.store, ops[1..])
  }

  /** Any sequence of operations keeps the table valid: usernames stay
      unique whatever is inserted or deleted. */
  lemma {:induction false} ApplyPreservesValid(s: Store, ops: seq<Op>)
    requires Valid(s)
    ensures Valid(Apply(s, ops))
    decreases |ops|
  {
    if ops != [] {
      match ops[0] {
        case Create(u, p, role, fault) => CreatePreservesValid(s, u, p, role, fault);
        case Delete(id) => DeletePreservesValid(s, id);
      }
      ApplyPreservesValid(Exec(s, ops[0]).store, ops[1..]);
    }
  }

  ghost predicate Increasing(ids: seq<int>) {
    forall i, j :: 0 <= i < j < |ids| ==> ids[i] < ids[j]
  }

  /** An id below every id of an increasing sequence can be put in front. */
  lemma IncreasingCons(id: int, ids: seq<int>)
    requires Increasing(ids) && forall x :: x in ids ==> id < x
    ensures Increasing([id] + ids)
  {
    var all := [id] + ids;
    forall i, j | 0 <= i < j < |all| ensures all[i] < all[j] {
      assert all[j] == ids[j - 1] && ids[j - 1] in ids;
      if i > 0 { assert all[i] == ids[i - 1]; }
    }
  }

  /** Ids are never reused: along any sequence of operations, deletes
      included, the ids handed out increase strictly, none is below the
      counter the sequence started from (on a valid table, above every id
      already present), and the counter never goes down. */
  lemma {:induction false} IdsNeverReused(s: Store, ops: seq<Op>)
    ensures s.nextId <= Apply(s, ops).nextId
    ensures Increasing(Issued(s, ops))
    ensures forall id :: id in Issued(s, ops) ==> s.nextId <= id < Apply(s, ops).nextId
    decreases |ops|
  {
    if ops != [] {
      var r := Exec(s, ops[0]);
      IdsNeverReused(r.store, ops[1..]);
      assert Apply(s, ops) == Apply(r.store, ops[1..]);
      var rest := Issued(r.store, ops[1..]);
      if ops[0].Create? && r.ok {
        assert r.store.nextId == s.nextId + 1;
        assert Issued(s, ops) == [s.nextId] + rest;
        IncreasingCons(s.nextId, rest);
      } else {
        assert r.store.nextId == s.nextId;
        assert Issued(s, ops) == rest;
      }
    }
  }
}
